=== FILE: README.md ===
# Expense tracker budget core, modelled in Dafny

The expense tracker is a small web backend. Users register with a monthly
salary and record expenses against it. They can also ask for summaries by
category and by month. Its only logic is a budget gate and some aggregations:

- **Budget gate.** A new expense is refused when the user has no salary. It is
  also refused when the month's spending plus the new amount would be
  strictly greater than the salary. An accepted expense returns a
  confirmation that says how much salary is left for that month.
- **Summaries.** A per-user summary gives category totals, the mean of the
  monthly totals, and what is left of the salary in the current month. A
  monthly summary gives the month totals in ascending order, or a
  "No expense data available" signal.
- **Per-expense fields.** When an expense is shown, its remaining salary and
  remaining percentage are recomputed for that expense's own month.
- **Acting user and registration.** A `user_id` in the request body, or else
  one in the query string, lets the caller act for another user. Registration
  needs an unused email and creates one salary row.

The model is a set of pure functions over an immutable store. The store holds
the user table, one optional salary per user, the payment methods, and the
expense rows. Amounts are whole numbers of cents. "Today" is a parameter.
Percentages are whole numbers of hundredths of a percent.

Modules, one per concern:

- `Outcomes` (outcomes.dfy): Option and Result.
- `Models` (models.dfy): the tables, their column constraints, and the deletion rules.
- `Ledger` (ledger.dfy): filtered sums and the month grouping.
- `Rounding` (rounding.dfy): rounding to 2 decimal places, half-even.
- `ActingUser` (acting_user.dfy): acting-user resolution.
- `Serializers` (serializers.dfy): per-expense derived fields, the expense listing and registration.
- `Budget` (budget.dfy): validation and the budget gate.
- `Summary` (summary.dfy): the two summary views.

Points where the code behaves differently from what a reader might expect:

- The code never checks the sign of an amount, so the model accepts zero and
  negative amounts.
- The user summary tests the salary for truth (views.py:134). A salary of
  exactly 0 gives no remaining figures there, and a negative salary is divided
  like any other. Only the per-expense percentage reports 0 for a salary that
  is not positive (serializer.py:71-72). `ZeroSalaryPercentages` states both
  behaviours.
- Registration creates the user and then the salary row with no transaction
  around them. The model is sequential and makes no claim about a failure
  between the two.
- The identity layer stores the email with its domain lower-cased. The
  email-in-use check compares the email as typed, so it can miss a stored
  email (see Findings).

## Model

| member | source | states |
|---|---|---|
| Models.ParseCategory | expense_project/expenses/models.py:13-32 | Only the five stored keys food, grocery, travel, rent and other are accepted as a category, and each is read back as the category it names. |
| Models.DeleteUser | expense_project/expenses/models.py:21-25 | Deleting a user removes that user, the user's salary row and every expense of the user. Every other user keeps the same record and salary. Every expense of another user stays, as many times as it was stored. The store constraints still hold afterwards. |
| Models.DeleteMethod | expense_project/expenses/models.py:34-38 | Deleting a payment method fails with a protection error exactly when some expense refers to it. Otherwise exactly that method goes, every other method keeps its name, and the store constraints still hold. |
| Models.AddMethod | expense_project/expenses/models.py:5-6 | A blank name or one longer than 50 characters is refused on the name field. A valid name that is already used is refused as a duplicate. Otherwise the method gets a fresh id, and names stay unique. |
| Ledger.SumIn | expense_project/expenses/views.py:37-44 | A filtered amount sum is 0 when no row matches the filter, as the `or 0` after the aggregate gives. |
| Ledger.SumInIsTotalOfSelected | expense_project/expenses/views.py:37-44 | The month spend adds exactly the amounts of the acting user's rows whose year and month match. No other row counts. |
| Ledger.SumInSnoc | expense_project/expenses/views.py:51 | Storing one more row changes a filtered sum by that row's amount when the filter selects the row. Otherwise the sum does not change. |
| Ledger.Select | expense_project/expenses/views.py:38-42 | The filter keeps a row exactly when the row matches. |
| Ledger.SelectCounts | expense_project/expenses/views.py:38-42 | A matching row is kept as many times as the ledger holds it. A row that does not match is not kept at all. |
| Ledger.SelectAppend | expense_project/expenses/views.py:38-42 | The filter keeps ledger order. Filtering two consecutive stretches of the ledger gives the rows of the first stretch, then those of the second. |
| Ledger.InsertMonth | expense_project/expenses/views.py:160-166 | Adding a month to an ascending list of distinct months gives an ascending list of distinct months, with that month added. |
| Ledger.MonthsOf | expense_project/expenses/views.py:160-166 | The month groups are strictly ascending. A month appears exactly when the user has an expense dated in it. |
| Ledger.TotalsFor | expense_project/expenses/views.py:160-166 | Each group row holds its month and that month's spend for the user, in the groups' order. |
| Ledger.MonthlyTotalsPartition | expense_project/expenses/views.py:107-112 | The month groups split the user's expenses: their totals add up to everything the user spent. |
| Ledger.MonthlyTotalsCoverMonths | expense_project/expenses/views.py:160-166 | The month grouping has a row for every month in which the user has an expense, and no row for any other month. |
| Ledger.MonthsOfEmptyIff | expense_project/expenses/views.py:168 | There is at least one month group exactly when the user has at least one expense. |
| Rounding.RoundHalfEven | expense_project/expenses/views.py:136-138 | Rounding picks the integer nearest the exact ratio. A tie goes to the even neighbour. |
| Rounding.RoundHalfEvenUnique | expense_project/expenses/views.py:136-138 | No other integer satisfies that rounding rule, so the rounded percentage is fully determined. |
| Rounding.PercentHundredths | expense_project/expenses/views.py:136-138 | The percentage is within half a hundredth of `remaining / salary * 100`. At an exact tie it is the even hundredth. This holds for a negative salary too. With RoundHalfEvenUnique, these two facts fix the value. |
| Rounding.PercentTiesGoToEven | expense_project/expenses/views.py:136-138 | Against a salary of 200.00, 0.01 left is 0.005 %, shown as 0.00 %, and 0.03 left is 0.015 %, shown as 0.02 %. |
| ActingUser.Chosen | expense_project/expenses/base.py:6-9 | A truthy body `user_id` is used. Otherwise the query-string value is used. |
| ActingUser.ParseInt | expense_project/expenses/base.py:13 | Text converts exactly when it is an optional `+` or `-` followed by at least one ASCII digit. Any other text is rejected. |
| ActingUser.ParseUnsignedDigits | expense_project/expenses/base.py:13 | Unsigned digit text converts to the value of its digits in base 10. |
| ActingUser.ParsePlusDigits | expense_project/expenses/base.py:13 | Digit text after a `+` converts to the value of the digits. |
| ActingUser.ParseMinusDigits | expense_project/expenses/base.py:13 | Digit text after a `-` converts to the negated value of the digits. |
| ActingUser.DigitsValueLeadingZero | expense_project/expenses/base.py:13 | A leading zero does not change the value of digit text. |
| ActingUser.PaddedAndSignedIds | expense_project/expenses/base.py:13 | "007" converts to 7, "+5" to 5 and "-05" to -5, as Python's `int` gives. |
| ActingUser.IdOf | expense_project/expenses/base.py:13 | A numeric parameter is used as the id. Text is converted exactly when ParseInt accepts it, to ParseInt's value, and any other text is the conversion error. |
| ActingUser.Resolve | expense_project/expenses/base.py:5-19 | With no truthy `user_id` the caller acts for themself. A supplied id that names a user gives that user. One that names nobody gives the `user_id` validation error, and non-numeric text gives a conversion error. No other failure occurs. |
| ActingUser.ParseShowInt | expense_project/expenses/base.py:13 | The decimal text of any id converts back to that id. |
| ActingUser.BodyTakesPrecedence | expense_project/expenses/base.py:6-9 | When the body holds a truthy `user_id`, the query string has no effect on the result. |
| ActingUser.AnyCallerMayOverride | expense_project/expenses/base.py:11-13 | Any caller that names an existing user, in the body or in the query string, acts as that user. There is no privilege check. |
| ActingUser.TextAndNumberAgree | expense_project/expenses/base.py:6-13 | A nonzero id resolves the same way as query-string text and as a body number. |
| ActingUser.ZeroAsNumberOrText | expense_project/expenses/base.py:6-11 | A body number 0 is falsy and falls back to the caller. A query-string "0" is truthy, is looked up, and fails. |
| Budget.Validate | expense_project/expenses/models.py:27-40 | A submission passes only if the amount fits 10 digits with 2 decimals, the category is a choice, the payment method exists and any given date is a real date. Every failing field is reported. The date defaults to today. The amount's sign is not checked. |
| Budget.Gate | expense_project/expenses/views.py:28-61 | With no salary the gate fails with the missing-salary error whatever the amount. With a salary, its only error is the budget error. Otherwise it fails exactly when month spend plus amount is strictly greater than the salary, so reaching the salary exactly is accepted. On acceptance it appends exactly this one expense, changes nothing else, and confirms username, date, category and message. The remaining amount equals the salary minus the month's new spend and is never negative. |
| Budget.RecordExpense | expense_project/expenses/views.py:23-51 | Field validation comes first, then acting-user resolution, then the gate. A validation failure and a resolution failure each return their own error and store nothing. Otherwise the result is exactly the gate's, for the acting user and the validated submission: the budget rule, the appended row and the confirmation all come from it. |
| Budget.GateMonthlySpentAfter | expense_project/expenses/views.py:37-53 | After acceptance, that month's spend is the spend before plus the amount. Every other user's and month's spend is unchanged. |
| Budget.GatePreservesBudget | expense_project/expenses/views.py:46-51 | If every salaried user's months were within salary before an accepted expense, they still are after it. |
| Budget.RecordPreservesWellFormed | expense_project/expenses/views.py:51 | A stored expense refers to an existing user and payment method, and its amount fits the column. |
| Budget.MarchScenario | expense_project/expenses/views.py:46-59 | Take a salary of 1000.00 and March expenses of 300.00 and 200.00. A further 550.00 is refused. A further 500.00 is accepted and leaves 0.00. |
| Summary.CategoryTotals | expense_project/expenses/views.py:100-105 | The category map holds exactly the categories with at least one expense of the user, each mapped to its sum. |
| Summary.MonthlyMean | expense_project/expenses/views.py:107-116 | The average of the month totals is the user's total divided by the number of months with expenses. With no expenses it is 0, as the `or 0` gives. |
| Summary.Summarize | expense_project/expenses/views.py:92-151 | An unknown user is an error. The summary holds the category map. With at least one month group, the average is the user's total divided by the number of groups. With no expenses it is 0. The salary is reported as stored. With a salary that is present and nonzero, it reports salary minus this month's spend and that figure as a percentage rounded to the nearest hundredth, with ties to the even one. Otherwise both are empty. |
| Summary.SummaryOfUserWithoutExpenses | expense_project/expenses/views.py:114-116 | A user without expenses gets an empty category map and an average of 0, not an error. |
| Summary.MonthlySummary | expense_project/expenses/views.py:156-176 | A user without expenses gets the "no data" signal. Otherwise the result is a non-empty list, strictly ascending by month, with one row for each month the user has expenses in, holding that month's spend. The rows add up to the user's total. |
| Serializers.RemainingSalary | expense_project/expenses/serializer.py:44-61 | With no salary there is no figure. Otherwise the figure plus the spend of the expense's own month equals the salary. |
| Serializers.RemainingPercentage | expense_project/expenses/serializer.py:63-74 | There is no percentage exactly when there is no remaining salary. A salary that is not positive gives 0. Otherwise the value is within half a hundredth of `remaining / salary * 100`, and at an exact tie it is the even hundredth. |
| Serializers.ListExpenses | expense_project/expenses/views.py:19-21 | The listing holds exactly the acting user's expenses, in ledger order, each with its derived fields. |
| Budget.ConfirmationMatchesView | expense_project/expenses/views.py:53-59 | Right after acceptance, the new expense shows the same remaining salary as its confirmation. |
| Serializers.LaterExpenseChangesView | expense_project/expenses/serializer.py:50-61 | An expense's derived figure is recomputed from current data. A later expense in the same month lowers it by that expense's amount, and one in another month leaves it unchanged. |
| Summary.ZeroSalaryPercentages | expense_project/expenses/serializer.py:69-72 | With a salary of exactly 0, the expense view reports a percentage of 0. The user summary reports no remaining salary and no percentage. |
| Serializers.NormalizeEmail | expense_project/expenses/serializer.py:103-107 | The stored email keeps everything up to the last '@' as typed and has the domain after it lower-cased. Text without '@' is kept unchanged. |
| Serializers.NormalizeEmailIdempotent | expense_project/expenses/serializer.py:103-107 | A stored email is already normalised: normalising it again changes nothing. |
| Serializers.Register | expense_project/expenses/serializer.py:76-114 | Registration fails on the email field exactly when the email is blank or equals a stored email as typed. It also reports a blank or used username, a blank password and a salary that does not fit the column. A success stores the user with the normalised email and exactly one salary row with the submitted amount, and keeps the store constraints. |
| Serializers.SecondRegistrationWithSameEmailFails | expense_project/expenses/serializer.py:93-98 | After a successful registration with an email already in normal form, another one with the same email fails on the email field. The first user's salary row holds the amount submitted for that user. |
| Serializers.MixedCaseDomainRegistersTwice | expense_project/expenses/serializer.py:93-107 | Once an email not in normal form is registered, a second registration with the same email and another free username succeeds. Both users are then stored with the same email. |
| Serializers.ExampleEmailNormalForm | expense_project/expenses/serializer.py:103-107 | The well-formed address "a@X.io" is not in normal form: it is stored as "a@x.io". So it can be registered twice. |
| Serializers.RegisterNormalized | expense_project/expenses/serializer.py:93-114 | The corrected registration looks up the normalised email. It fails on the email field exactly when that form is stored or the email is blank. The username, password and salary fields fail exactly as in Register, and success stores the same user and salary row. |
| Serializers.RegisterNormalizedKeepsEmailsUnique | expense_project/expenses/serializer.py:93-98 | With the corrected lookup, if no two users share an email before a registration, none do after it. |
| Serializers.RegisterNormalizedRefusesSameMailbox | expense_project/expenses/serializer.py:93-98 | With the corrected lookup, after a registration, another one with any email of the same normal form fails. |

## Left out

- HTTP plumbing is not modelled: status codes, permission classes, routing, and the response wrapping in the viewset's `create`. The caller is assumed to be an authenticated, existing user.
- Admin display configuration is not modelled.
- Password hashing and storage are not modelled.
- Image attachments, row ids and creation timestamps are not modelled.
- The clock is a parameter. The code reads `date.today()` for the month check and the field default `now` for the stored date; both are one `today` here.
- Binary floating point is not modelled. The float conversions in the per-expense fields are replaced by exact rationals rounded half-even. So is the 28-digit precision of decimal division in the summary.
- Concurrency is not modelled. The check-then-insert race between reading the month's spend and saving is not serialised in the code. The model handles one request at a time.
- Expense update and delete are not modelled. The viewset inherits them from the generic framework class, and they run no budget check.
- Salary edits through the admin are not modelled.
- Budget.Gate: the confirmation's remaining amount is not bounded to 10 digits. The output field would fail to serialise a larger value, and with negative amounts the remaining amount can exceed the salary.
- Budget.Validate: an amount with more than 2 decimal places cannot be written in cents. The amount field rejects such input, and the model cannot express it.
- ActingUser.ParseInt: only an optional sign followed by ASCII digits converts. Python's `int` also accepts surrounding whitespace, underscores between digits and non-ASCII digits, which the model rejects as malformed.
- ActingUser.IdOf: the text conversion is ParseInt, with the gaps listed on its line. A JSON body can also carry other values, which are not modelled. A fractional number or a boolean is truthy and converts to an integer in the id lookup (base.py:13), so 2.7 looks up user 2 and `true` looks up user 1. A list or an object fails the conversion with a server error.
- Summary.Summarize: the monthly average is an exact real. The database average may round it.
- Budget.RecordExpense: with `expense_date` omitted, the model records the expense dated today and confirms it. In the code the row is saved with the field default `now` (models.py:40). That default is a datetime, not a date. When the response is built (views.py:64-66), the date field of the response refuses a datetime. So the row is stored but the request ends in a server error.
- Serializers.Register: the model accepts any non-empty email and username. The serializer's own field validators are not modelled: the email must be a well-formed address with a dotted domain (serializer.py:83-87), and the username allows at most 150 characters drawn from letters, digits and @ . + - _.
- Serializers.Register: the username is stored as submitted. The identity layer stores its NFKC normal form. A username whose normal form is already taken passes the uniqueness check, then fails at the database's unique constraint with a server error, where the model returns success.
- Serializers.Register: text fields are not trimmed. The framework strips surrounding whitespace, so a password or username made only of spaces counts as blank there but not in the model.
- Serializers.NormalizeEmail: only ASCII letters are lower-cased. Python's `str.lower` also lower-cases other letters.
- Serializers.ListExpenses: the model lists expenses in ledger order. The queryset (views.py:21) has no ordering and the model class declares none, so the database may return the rows in any order.

## Findings

| source | as written | input that shows it | evidently intended | confidence | as-written member | corrected member |
|---|---|---|---|---|---|---|
| expense_project/expenses/serializer.py:93-107 | The email-in-use check compares the email exactly as typed. `create_user` stores it with the domain lower-cased. | Register "a@X.io" twice. The lookup for "a@X.io" never matches the stored "a@x.io", so both succeed and two users share the email "a@x.io". | An email whose normal form is already stored is refused. | medium; not executed; assumes a database that compares text case-sensitively, as SQLite and PostgreSQL do | Serializers.MixedCaseDomainRegistersTwice | Serializers.RegisterNormalized |

=== FILE: acting_user.dfy ===
/** Resolution of the acting user: a `user_id` in the request body wins over
    one in the query string; with neither, the caller acts for themself. No
    privilege check is made on the override. */
module ActingUser {
  import opened Outcomes
  import opened Models

  /** A raw `user_id` parameter: missing, text (query strings and form
      bodies) or a number (JSON bodies). */
  datatype RawParam = Absent | Text(text: string) | Number(n: int)

  /** Python truthiness of the parameter. */
  predicate Truthy(p: RawParam) {
    match p
    case Absent => false
    case Text(s) => s != ""
    case Number(n) => n != 0
  }

  /** `body or query`. */
  function Chosen(body: RawParam, query: RawParam): (p: RawParam)
    ensures Truthy(body) ==> p == body
    ensures !Truthy(body) ==> p == query
  {
    if Truthy(body) then body else query
  }

  predicate IsDigit(c: char) {
    '0' <= c <= '9'
  }

  predicate AllDigits(s: string) {
    forall i :: 0 <= i < |s| ==> IsDigit(s[i])
  }

  /** The value of a string of decimal digits. */
  function DigitsValue(s: string): (v: nat)
    requires AllDigits(s)
    decreases |s|
  {
    if |s| == 0 then 0
    else DigitsValue(s[..|s| - 1]) * 10 + (s[|s| - 1] - '0') as int
  }

  /** The decimal digits of a natural number, without leading zeros. */
  function ShowNat(n: nat): (s: string)
    ensures |s| > 0 && AllDigits(s)
    decreases n
  {
    if n < 10 then ['0' + n as char] else ShowNat(n / 10) + ['0' + (n % 10) as char]
  }

  /** The integer conversion an id lookup applies to text: an optional sign
      followed by at least one decimal digit. */
  function ParseInt(s: string): (r: Option<int>)
    ensures r.Some? <==> (var digits := if |s| > 0 && (s[0] == '+' || s[0] == '-') then s[1..] else s;
                          |digits| > 0 && AllDigits(digits))
  {
    if |s| > 0 && (s[0] == '-' || s[0] == '+') then
      var body := s[1..];
      if |body| > 0 && AllDigits(body) then
        var v: int := DigitsValue(body);
        Some(if s[0] == '-' then -v else v)
      else None
    else if |s| > 0 && AllDigits(s) then Some(DigitsValue(s))
    else None
  }

  function ShowInt(n: int): string {
    if n < 0 then "-" + ShowNat(-n) else ShowNat(n)
  }

  lemma {:induction false} DigitsValueOfShowNat(n: nat)
    ensures DigitsValue(ShowNat(n)) == n
    decreases n
  {
    if n >= 10 {
      var s := ShowNat(n);
      DigitsValueOfShowNat(n / 10);
      assert s[..|s| - 1] == ShowNat(n / 10);
    }
  }

  /** Reading back the decimal text of an id gives the id. */
  lemma ParseShowInt(n: int)
    ensures ParseInt(ShowInt(n)) == Some(n)
  {
    var s := ShowInt(n);
    if n < 0 {
      DigitsValueOfShowNat(-n);
      assert s[0] == '-' && s[1..] == ShowNat(-n);
    } else {
      DigitsValueOfShowNat(n);
      assert IsDigit(s[0]);
    }
  }

  /** The value of unsigned digit text: the digits read in base 10. */
  lemma ParseUnsignedDigits(t: string)
    requires |t| > 0 && AllDigits(t)
    ensures ParseInt(t) == Some(DigitsValue(t))
  {
    assert IsDigit(t[0]);
  }

  /** A `+` sign leaves the value of the digits unchanged. */
  lemma ParsePlusDigits(t: string)
    requires |t| > 0 && AllDigits(t)
    ensures ParseInt("+" + t) == Some(DigitsValue(t))
  {
    var p := "+" + t;
    assert p[0] == '+' && p[1..] == t;
  }

  /** A `-` sign negates the value of the digits. */
  lemma ParseMinusDigits(t: string)
    requires |t| > 0 && AllDigits(t)
    ensures ParseInt("-" + t) == Some(-(DigitsValue(t) as int))
  {
    var p := "-" + t;
    assert p[0] == '-' && p[1..] == t;
  }

  /** Leading zeros do not change the value of a digit string. */
  lemma {:induction false} DigitsValueLeadingZero(t: string)
    requires AllDigits(t)
    ensures AllDigits("0" + t) && DigitsValue("0" + t) == DigitsValue(t)
    decreases |t|
  {
    var z := "0" + t;
    assert AllDigits(z) by {
      forall i | 0 <= i < |z|
        ensures IsDigit(z[i])
      {
        if i > 0 { assert z[i] == t[i - 1]; }
      }
    }
    if |t| > 0 {
      var front := t[..|t| - 1];
      DigitsValueLeadingZero(front);
      assert z[..|z| - 1] == "0" + front;
      assert z[|z| - 1] == t[|t| - 1];
    }
  }

  /** Zero-padded and sign-prefixed ids read as the plain decimal id. */
  lemma PaddedAndSignedIds()
    ensures ParseInt("007") == Some(7)
    ensures ParseInt("+5") == Some(5)
    ensures ParseInt("-05") == Some(-5)
  {
    ParseUnsignedDigits("007");
    ParsePlusDigits("5");
    ParseMinusDigits("05");
  }

  /** The id a truthy parameter names, or the conversion error. */
  function IdOf(p: RawParam): (r: Result<int, Error>)
    requires Truthy(p)
    ensures p.Number? ==> r == Ok(p.n)
    ensures p.Text? ==> (r.Ok? <==> ParseInt(p.text).Some?)
    ensures p.Text? && r.Ok? ==> r.value == ParseInt(p.text).value
    ensures r.Err? ==> r.error == MalformedUserId
  {
    match p
    case Number(n) => Ok(n)
    case Text(s) =>
      match ParseInt(s)
      case Some(n) => Ok(n)
      case None => Err(MalformedUserId)
  }

  /** The acting user for a request by `caller`. */
  function Resolve(users: map<UserId, User>, caller: UserId, body: RawParam, query: RawParam)
    : (r: Result<UserId, Error>)
    ensures !Truthy(body) && !Truthy(query) ==> r == Ok(caller)
    ensures r.Err? ==> Truthy(body) || Truthy(query)
    ensures r.Err? ==> r.error in {MalformedUserId, NoSuchActingUser}
    ensures Truthy(Chosen(body, query)) && IdOf(Chosen(body, query)).Ok? ==>
              var id := IdOf(Chosen(body, query)).value;
              r == if id in users then Ok(id) else Err(NoSuchActingUser)
    ensures Truthy(Chosen(body, query)) && IdOf(Chosen(body, query)).Err? ==> r == Err(MalformedUserId)
  {
    var p := Chosen(body, query);
    if Truthy(p) then
      match IdOf(p)
      case Ok(id) => if id in users then Ok(id) else Err(NoSuchActingUser)
      case Err(e) => Err(e)
    else Ok(caller)
  }

  /** A truthy body parameter decides alone: the query string is not read. */
  lemma BodyTakesPrecedence(users: map<UserId, User>, caller: UserId, body: RawParam, q1: RawParam, q2: RawParam)
    requires Truthy(body)
    ensures Resolve(users, caller, body, q1) == Resolve(users, caller, body, q2)
  {
  }

  /** Any caller may act for any existing user: the override is not checked
      against the caller's privileges. */
  lemma AnyCallerMayOverride(users: map<UserId, User>, caller: UserId, id: UserId)
    requires id in users && id != 0
    ensures Resolve(users, caller, Number(id), Absent) == Ok(id)
    ensures Resolve(users, caller, Absent, Text(ShowInt(id))) == Ok(id)
  {
    ParseShowInt(id);
  }

  /** The same nonzero id written as text in the query string or as a number
      in the body resolves the same way. */
  lemma TextAndNumberAgree(users: map<UserId, User>, caller: UserId, id: int)
    requires id != 0
    ensures Resolve(users, caller, Absent, Text(ShowInt(id))) == Resolve(users, caller, Number(id), Absent)
  {
    ParseShowInt(id);
  }

  /** Zero is falsy as a number but truthy as text: a body `0` falls back to
      the caller, while a query `"0"` is looked up (and no user has id 0
      in a store whose ids are positive). */
  lemma ZeroAsNumberOrText(users: map<UserId, User>, caller: UserId)
    requires 0 !in users
    ensures Resolve(users, caller, Number(0), Absent) == Ok(caller)
    ensures Resolve(users, caller, Absent, Text("0")) == Err(NoSuchActingUser)
  {
  }
}

=== FILE: budget.dfy ===
/** The budget gate on a new expense: the submitted fields are validated,
    the acting user is resolved, and the expense is stored only when the
    user has a salary and the month's spending including the new amount
    does not exceed it. */
module Budget {
  import opened Outcomes
  import opened Models
  import opened Ledger
  import opened ActingUser
  import opened Serializers

  const SuccessMessage: string := "Payment made successfully"

  /** The confirmation of an accepted expense: exactly these five fields,
      the remaining amount in cents. */
  datatype Confirmation = Confirmation(
    username: string,
    date: Date,
    category: Category,
    remainingAmount: int,
    message: string)

  /** The submitted fields of a new expense; the date may be omitted. */
  datatype ExpenseInput = ExpenseInput(
    amount: int,
    category: string,
    paymentMethod: MethodId,
    date: Option<Date>)

  /** The submitted fields once validated, with the date defaulted. */
  datatype Draft = Draft(amount: int, category: Category, paymentMethod: MethodId, date: Date)

  /** Field validation of a submission: the amount must fit the amount
      column, the category must be one of the choices, the payment method
      must exist and a given date must be a calendar date. All failing
      fields are reported together. The amount's sign is not checked. */
  function Validate(st: Store, input: ExpenseInput, today: Date): (r: Result<Draft, Error>)
    ensures r.Ok? <==> && FitsAmountColumn(input.amount)
                       && ParseCategory(input.category).Some?
                       && input.paymentMethod in st.methods
                       && (input.date.Some? ==> ValidDate(input.date.value))
    ensures r.Err? ==> r.error.Invalid?
    ensures r.Err? ==> && (AmountField in r.error.fields <==> !FitsAmountColumn(input.amount))
                       && (CategoryField in r.error.fields <==> ParseCategory(input.category).None?)
                       && (MethodField in r.error.fields <==> input.paymentMethod !in st.methods)
                       && (DateField in r.error.fields <==> input.date.Some? && !ValidDate(input.date.value))
                       && r.error.fields <= {AmountField, CategoryField, MethodField, DateField}
    ensures r.Ok? ==> && r.value.amount == input.amount
                      && CategoryKey(r.value.category) == input.category
                      && r.value.paymentMethod == input.paymentMethod
                      && r.value.date == (if input.date.Some? then input.date.value else today)
  {
    var errors :=
      (if FitsAmountColumn(input.amount) then {} else {AmountField})
      + (if ParseCategory(input.category).Some? then {} else {CategoryField})
      + (if input.paymentMethod in st.methods then {} else {MethodField})
      + (if input.date.Some? && !ValidDate(input.date.value) then {DateField} else {});
    if errors != {} then Err(Invalid(errors))
    else
      Ok(Draft(input.amount, ParseCategory(input.category).value, input.paymentMethod,
               if input.date.Some? then input.date.value else today))
  }

  function ExpenseOf(u: UserId, d: Draft): Expense {
    Expense(u, d.amount, d.category, d.paymentMethod, d.date)
  }

  /** The gate proper, for acting user `u`: no salary is a rejection whatever
      the amount; otherwise the expense is rejected exactly when the month's
      spending plus the amount is strictly greater than the salary. On
      acceptance exactly one expense is appended and the confirmation reports
      what is left of the salary for that month, which is never negative. */
  function Gate(st: Store, u: UserId, d: Draft): (r: Result<(Store, Confirmation), Error>)
    requires u in st.users
    ensures u !in st.salaries ==> r == Err(SalaryNotSet)
    ensures u in st.salaries ==>
              (r.Err? <==> MonthSpent(st.expenses, u, MonthOf(d.date)) + d.amount > st.salaries[u])
    ensures r.Err? ==> r.error == SalaryNotSet || r.error == BudgetExceeded
    ensures u in st.salaries && r.Err? ==> r.error == BudgetExceeded
    ensures r.Ok? ==>
              var (st', c) := r.value;
              && u in st.salaries
              && st' == st.(expenses := st.expenses + [ExpenseOf(u, d)])
              && c.username == st.users[u].username
              && c.date == d.date
              && c.category == d.category
              && c.message == SuccessMessage
              && c.remainingAmount == st.salaries[u] - MonthSpent(st'.expenses, u, MonthOf(d.date))
              && 0 <= c.remainingAmount
  {
    if u !in st.salaries then Err(SalaryNotSet)
    else
      var salary := st.salaries[u];
      var monthlySpent := MonthSpent(st.expenses, u, MonthOf(d.date));
      if monthlySpent + d.amount > salary then Err(BudgetExceeded)
      else
        var e := ExpenseOf(u, d);
        SumInSnoc(st.expenses, e, ByMonth(u, MonthOf(d.date)));
        var remaining := salary - (monthlySpent + d.amount);
        Ok((st.(expenses := st.expenses + [e]),
            Confirmation(st.users[u].username, d.date, d.category, remaining, SuccessMessage)))
  }

  /** Recording an expense for the request of `caller`: validation first,
      then the acting user, then the gate for that user and the validated
      submission. Every failure leaves the store as
      it was (a failure carries no store); a success appends exactly one
      expense, for the acting user, and changes nothing else. */
  function RecordExpense(st: Store, caller: UserId, body: RawParam, query: RawParam,
                         input: ExpenseInput, today: Date): (r: Result<(Store, Confirmation), Error>)
    requires caller in st.users
    ensures Validate(st, input, today).Err? ==> r == Err(Validate(st, input, today).error)
    ensures Validate(st, input, today).Ok? && Resolve(st.users, caller, body, query).Err? ==>
              r == Err(Resolve(st.users, caller, body, query).error)
    ensures Validate(st, input, today).Ok? && Resolve(st.users, caller, body, query).Ok? ==>
              var u := Resolve(st.users, caller, body, query).value;
              && u in st.users
              && r == Gate(st, u, Validate(st, input, today).value)
    ensures r.Ok? ==>
              var st' := r.value.0;
              && |st'.expenses| == |st.expenses| + 1
              && st'.expenses[..|st.expenses|] == st.expenses
              && st'.expenses[|st.expenses|].user == Resolve(st.users, caller, body, query).value
              && st'.expenses[|st.expenses|].amount == input.amount
              && st'.users == st.users && st'.salaries == st.salaries && st'.methods == st.methods
  {
    match Validate(st, input, today)
    case Err(e) => Err(e)
    case Ok(d) =>
      match Resolve(st.users, caller, body, query)
      case Err(e) => Err(e)
      case Ok(u) =>
        assert u in st.users;
        var r := Gate(st, u, d);
        if r.Ok? then
          assert r.value.0.expenses[..|st.expenses|] == st.expenses;
          r
        else r
  }

  /** The month's spending after an accepted expense is the spending before
      plus the amount; every other user's and month's spending is as before. */
  lemma GateMonthlySpentAfter(st: Store, u: UserId, d: Draft, v: UserId, m: YearMonth)
    requires u in st.users
    requires Gate(st, u, d).Ok?
    ensures var st' := Gate(st, u, d).value.0;
            MonthSpent(st'.expenses, v, m)
              == MonthSpent(st.expenses, v, m) + (if v == u && m == MonthOf(d.date) then d.amount else 0)
  {
  }

  /** Every month with expenses of a user who has a salary is within that
      salary. */
  predicate WithinBudget(st: Store) {
    forall i :: 0 <= i < |st.expenses| && st.expenses[i].user in st.salaries ==>
      MonthSpent(st.expenses, st.expenses[i].user, MonthOf(st.expenses[i].date))
        <= st.salaries[st.expenses[i].user]
  }

  /** The gate keeps every user's months within their salaries. */
  lemma GatePreservesBudget(st: Store, u: UserId, d: Draft)
    requires u in st.users
    requires WithinBudget(st)
    requires Gate(st, u, d).Ok?
    ensures WithinBudget(Gate(st, u, d).value.0)
  {
  }

  /** An accepted expense keeps the store's referential and column
      constraints, given a date that is a calendar date. */
  lemma RecordPreservesWellFormed(st: Store, caller: UserId, body: RawParam, query: RawParam,
                                  input: ExpenseInput, today: Date)
    requires caller in st.users && WellFormed(st) && ValidDate(today)
    requires RecordExpense(st, caller, body, query, input, today).Ok?
    ensures WellFormed(RecordExpense(st, caller, body, query, input, today).value.0)
  {
  }

  /** The worked example: salary 1000.00, March food 300.00 and travel
      200.00; rent of 550.00 is refused, rent of 500.00 is accepted and
      leaves 0.00. */
  lemma MarchScenario()
    ensures var march := Date(2024, 3, 15);
            var st := Store(map[1 := User("u", "u@x.com")], map[1 := 100000], map[1 := "card"],
                            [Expense(1, 30000, Food, 1, Date(2024, 3, 2)),
                             Expense(1, 20000, Travel, 1, Date(2024, 3, 9))], 2, 2);
            && Gate(st, 1, Draft(55000, Rent, 1, march)) == Err(BudgetExceeded)
            && Gate(st, 1, Draft(50000, Rent, 1, march)).Ok?
            && Gate(st, 1, Draft(50000, Rent, 1, march)).value.1.remainingAmount == 0
  {
  }

  /** Right after an expense is accepted, showing it gives the same remaining
      salary as its confirmation. */
  lemma ConfirmationMatchesView(st: Store, u: UserId, d: Draft)
    requires u in st.users
    requires Gate(st, u, d).Ok?
    ensures var (st', c) := Gate(st, u, d).value;
            RemainingSalary(st', ExpenseOf(u, d)) == Some(c.remainingAmount)
  {
  }
}

=== FILE: ledger.dfy ===
/** The aggregation queries the handlers issue against the expense table:
    filtered sums (per user and month, per user and category, per user) and
    the month-truncated grouping ordered by month. */
module Ledger {
  import opened Models

  /** Which rows a filtered `Sum("amount")` adds up. */
  datatype Scope =
    | ByMonth(u: UserId, m: YearMonth)       // user=u, expense_date year and month of m
    | ByCategory(u: UserId, c: Category)     // user=u, category=c
    | ByUser(u: UserId)                      // user=u

  predicate InScope(e: Expense, s: Scope) {
    match s
    case ByMonth(u, m) => e.user == u && MonthOf(e.date) == m
    case ByCategory(u, c) => e.user == u && e.category == c
    case ByUser(u) => e.user == u
  }

  /** The filtered sum; an empty selection sums to 0 (the `or 0` after the
      aggregate). */
  function SumIn(xs: seq<Expense>, s: Scope): (r: int)
    ensures (forall i :: 0 <= i < |xs| ==> !InScope(xs[i], s)) ==> r == 0
    decreases |xs|
  {
    if |xs| == 0 then 0
    else SumIn(xs[..|xs| - 1], s) + (if InScope(xs[|xs| - 1], s) then xs[|xs| - 1].amount else 0)
  }

  function MonthSpent(xs: seq<Expense>, u: UserId, m: YearMonth): int {
    SumIn(xs, ByMonth(u, m))
  }

  function CategorySum(xs: seq<Expense>, u: UserId, c: Category): int {
    SumIn(xs, ByCategory(u, c))
  }

  function UserTotal(xs: seq<Expense>, u: UserId): int {
    SumIn(xs, ByUser(u))
  }

  /** The rows a filter selects, in ledger order: the reference meaning of
      a filtered sum. */
  function Select(xs: seq<Expense>, s: Scope): (r: seq<Expense>)
    ensures forall i :: 0 <= i < |r| ==> InScope(r[i], s)
    ensures forall e :: e in r <==> e in xs && InScope(e, s)
    decreases |xs|
  {
    if |xs| == 0 then []
    else if InScope(xs[|xs| - 1], s) then Select(xs[..|xs| - 1], s) + [xs[|xs| - 1]]
    else Select(xs[..|xs| - 1], s)
  }

  /** Selection keeps every selected row as often as the ledger holds it, and
      no other row. */
  lemma {:induction false} SelectCounts(xs: seq<Expense>, s: Scope)
    ensures forall e :: multiset(Select(xs, s))[e] == if InScope(e, s) then multiset(xs)[e] else 0
    decreases |xs|
  {
    if |xs| > 0 {
      var ys, last := xs[..|xs| - 1], xs[|xs| - 1];
      assert xs == ys + [last];
      SelectCounts(ys, s);
    }
  }

  lemma SelectSnoc(xs: seq<Expense>, e: Expense, s: Scope)
    ensures Select(xs + [e], s) == Select(xs, s) + (if InScope(e, s) then [e] else [])
  {
  }

  lemma SelectAppendStep(xs: seq<Expense>, front: seq<Expense>, last: Expense, s: Scope)
    requires Select(xs + front, s) == Select(xs, s) + Select(front, s)
    ensures Select(xs + (front + [last]), s) == Select(xs, s) + Select(front + [last], s)
  {
    var opt := if InScope(last, s) then [last] else [];
    var a, b := Select(xs, s), Select(front, s);
    assert Select(xs + (front + [last]), s) == (a + b) + opt by {
      assert xs + (front + [last]) == (xs + front) + [last];
      SelectSnoc(xs + front, last, s);
    }
    assert Select(front + [last], s) == b + opt by {
      SelectSnoc(front, last, s);
    }
    assert (a + b) + opt == a + (b + opt);
  }

  /** Selection keeps ledger order: selecting from two consecutive stretches
      of the ledger gives the selection from the first followed by the
      selection from the second. */
  lemma {:induction false} SelectAppend(xs: seq<Expense>, ys: seq<Expense>, s: Scope)
    ensures Select(xs + ys, s) == Select(xs, s) + Select(ys, s)
    decreases |ys|
  {
    if |ys| == 0 {
      assert xs + ys == xs;
    } else {
      var front, last := ys[..|ys| - 1], ys[|ys| - 1];
      assert ys == front + [last];
      SelectAppend(xs, front, s);
      SelectAppendStep(xs, front, last, s);
    }
  }

  function Total(xs: seq<Expense>): int
    decreases |xs|
  {
    if |xs| == 0 then 0 else Total(xs[..|xs| - 1]) + xs[|xs| - 1].amount
  }

  lemma TotalSnoc(xs: seq<Expense>, e: Expense)
    ensures Total(xs + [e]) == Total(xs) + e.amount
  {
  }

  /** A filtered sum adds exactly the amounts of the rows the filter selects. */
  lemma {:induction false} SumInIsTotalOfSelected(xs: seq<Expense>, s: Scope)
    ensures SumIn(xs, s) == Total(Select(xs, s))
    decreases |xs|
  {
    if |xs| > 0 {
      var ys, e := xs[..|xs| - 1], xs[|xs| - 1];
      SumInIsTotalOfSelected(ys, s);
      if InScope(e, s) {
        TotalSnoc(Select(ys, s), e);
      }
    }
  }

  /** Appending a row changes a filtered sum by that row's amount when the
      filter selects it, and not at all otherwise. */
  lemma SumInSnoc(xs: seq<Expense>, e: Expense, s: Scope)
    ensures SumIn(xs + [e], s) == SumIn(xs, s) + (if InScope(e, s) then e.amount else 0)
  {
  }

  /** True when `u` has at least one expense dated in month `m`. */
  predicate HasMonth(xs: seq<Expense>, u: UserId, m: YearMonth) {
    exists i :: 0 <= i < |xs| && InScope(xs[i], ByMonth(u, m))
  }

  /** True when `u` has at least one expense in category `c`. */
  predicate HasCategory(xs: seq<Expense>, u: UserId, c: Category) {
    exists i :: 0 <= i < |xs| && InScope(xs[i], ByCategory(u, c))
  }

  predicate HasExpense(xs: seq<Expense>, u: UserId) {
    exists i :: 0 <= i < |xs| && xs[i].user == u
  }

  predicate StrictlyAscending(ms: seq<YearMonth>) {
    forall i, j :: 0 <= i < j < |ms| ==> Before(ms[i], ms[j])
  }

  /** Inserts a month into an ascending list of distinct months. */
  function InsertMonth(ms: seq<YearMonth>, m: YearMonth): (r: seq<YearMonth>)
    requires StrictlyAscending(ms)
    ensures StrictlyAscending(r)
    ensures forall k :: k in r <==> k in ms || k == m
    decreases |ms|
  {
    if |ms| == 0 then [m]
    else if m == ms[0] then ms
    else if Before(m, ms[0]) then [m] + ms
    else
      var rest := InsertMonth(ms[1..], m);
      assert forall k :: 0 <= k < |rest| ==> Before(ms[0], rest[k]) by {
        forall k | 0 <= k < |rest| ensures Before(ms[0], rest[k]) {
          assert rest[k] in rest;
          if rest[k] != m {
            var j :| 0 <= j < |ms[1..]| && ms[1..][j] == rest[k];
            assert Before(ms[0], ms[j + 1]);
          }
        }
      }
      [ms[0]] + rest
  }

  /** The distinct months in which `u` has expenses, ascending: the groups
      of the month truncation, ordered by month. */
  function MonthsOf(xs: seq<Expense>, u: UserId): (r: seq<YearMonth>)
    ensures StrictlyAscending(r)
    ensures forall m :: m in r <==> HasMonth(xs, u, m)
    decreases |xs|
  {
    if |xs| == 0 then []
    else
      var ys, e := xs[..|xs| - 1], xs[|xs| - 1];
      var ms := MonthsOf(ys, u);
      assert forall m :: HasMonth(xs, u, m) <==> HasMonth(ys, u, m) || InScope(e, ByMonth(u, m)) by {
        forall m ensures HasMonth(xs, u, m) <==> HasMonth(ys, u, m) || InScope(e, ByMonth(u, m)) {
          if HasMonth(ys, u, m) {
            var i :| 0 <= i < |ys| && InScope(ys[i], ByMonth(u, m));
            assert xs[i] == ys[i];
          }
          if HasMonth(xs, u, m) && !InScope(e, ByMonth(u, m)) {
            var i :| 0 <= i < |xs| && InScope(xs[i], ByMonth(u, m));
            assert i < |ys| && ys[i] == xs[i];
          }
          if InScope(e, ByMonth(u, m)) {
            assert InScope(xs[|xs| - 1], ByMonth(u, m));
          }
        }
      }
      if e.user == u then InsertMonth(ms, MonthOf(e.date)) else ms
  }

  /** One row of a month grouping. */
  datatype MonthTotal = MonthTotal(month: YearMonth, total: int)

  /** The total of `u` for each month of `ms`, in the order of `ms`. */
  function TotalsFor(xs: seq<Expense>, u: UserId, ms: seq<YearMonth>): (r: seq<MonthTotal>)
    ensures |r| == |ms|
    ensures forall i :: 0 <= i < |r| ==> r[i].month == ms[i] && r[i].total == MonthSpent(xs, u, ms[i])
    decreases |ms|
  {
    if |ms| == 0 then [] else [MonthTotal(ms[0], MonthSpent(xs, u, ms[0]))] + TotalsFor(xs, u, ms[1..])
  }

  /** The month grouping of `u`'s expenses, ascending by month. */
  function MonthlyTotals(xs: seq<Expense>, u: UserId): seq<MonthTotal> {
    TotalsFor(xs, u, MonthsOf(xs, u))
  }

  function SumTotals(ts: seq<MonthTotal>): int
    decreases |ts|
  {
    if |ts| == 0 then 0 else ts[0].total + SumTotals(ts[1..])
  }

  lemma {:induction false} TotalsOfEmptyLedger(u: UserId, ms: seq<YearMonth>)
    ensures SumTotals(TotalsFor([], u, ms)) == 0
    decreases |ms|
  {
    if |ms| > 0 {
      TotalsOfEmptyLedger(u, ms[1..]);
    }
  }

  /** Appending a row adds its amount to exactly one month total when the
      row is `u`'s and its month is listed (the list holds no month twice). */
  lemma {:induction false} TotalsSnoc(xs: seq<Expense>, e: Expense, u: UserId, ms: seq<YearMonth>)
    requires StrictlyAscending(ms)
    ensures SumTotals(TotalsFor(xs + [e], u, ms))
         == SumTotals(TotalsFor(xs, u, ms)) + (if e.user == u && MonthOf(e.date) in ms then e.amount else 0)
    decreases |ms|
  {
    if |ms| > 0 {
      TotalsSnoc(xs, e, u, ms[1..]);
      SumInSnoc(xs, e, ByMonth(u, ms[0]));
      assert ms[0] !in ms[1..] by {
        forall k | 0 <= k < |ms[1..]| ensures ms[1..][k] != ms[0] {
          assert Before(ms[0], ms[k + 1]);
        }
      }
    }
  }

  /** Month totals over a list of distinct months that covers every month
      of `u` add up to everything `u` spent. */
  lemma {:induction false} TotalsCoverUser(xs: seq<Expense>, u: UserId, ms: seq<YearMonth>)
    requires StrictlyAscending(ms)
    requires forall m :: HasMonth(xs, u, m) ==> m in ms
    ensures SumTotals(TotalsFor(xs, u, ms)) == UserTotal(xs, u)
    decreases |xs|
  {
    if |xs| == 0 {
      TotalsOfEmptyLedger(u, ms);
    } else {
      var ys, e := xs[..|xs| - 1], xs[|xs| - 1];
      assert xs == ys + [e];
      forall m | HasMonth(ys, u, m) ensures m in ms {
        var i :| 0 <= i < |ys| && InScope(ys[i], ByMonth(u, m));
        assert xs[i] == ys[i];
      }
      TotalsCoverUser(ys, u, ms);
      TotalsSnoc(ys, e, u, ms);
      if e.user == u {
        assert InScope(xs[|xs| - 1], ByMonth(u, MonthOf(e.date)));
      }
    }
  }

  /** The month grouping partitions the user's expenses: its totals add up
      to the user's overall total. */
  lemma MonthlyTotalsPartition(xs: seq<Expense>, u: UserId)
    ensures SumTotals(MonthlyTotals(xs, u)) == UserTotal(xs, u)
  {
    TotalsCoverUser(xs, u, MonthsOf(xs, u));
  }

  /** The month grouping has one row for each month in which `u` has an
      expense, and no other row. */
  lemma MonthlyTotalsCoverMonths(xs: seq<Expense>, u: UserId)
    ensures var ts := MonthlyTotals(xs, u);
            && (forall i :: 0 <= i < |ts| ==> HasMonth(xs, u, ts[i].month))
            && (forall m :: HasMonth(xs, u, m) ==> exists i :: 0 <= i < |ts| && ts[i].month == m)
  {
  }

  /** A user has a month group exactly when the user has an expense. */
  lemma MonthsOfEmptyIff(xs: seq<Expense>, u: UserId)
    ensures |MonthsOf(xs, u)| == 0 <==> !HasExpense(xs, u)
  {
  }
}

=== FILE: models.dfy ===
/** The three persisted tables (payment methods, expenses, salaries) plus the
    user table they reference, with the column constraints of the schema and
    the two deletion rules (cascade from a user, protection of a payment
    method). */
module Models {
  import opened Outcomes

  type UserId = int
  type MethodId = int

  /** Every amount column is a decimal with 2 fractional digits and at most
      10 digits in all, so an amount is a whole number of cents whose
      magnitude has at most 10 digits. */
  const MaxCents: int := 9_999_999_999

  predicate FitsAmountColumn(cents: int) {
    -MaxCents <= cents <= MaxCents
  }

  /** The five category choices of an expense. */
  datatype Category = Food | Grocery | Travel | Rent | Other

  const AllCategories: set<Category> := {Food, Grocery, Travel, Rent, Other}

  /** The stored key of a category choice. */
  function CategoryKey(c: Category): string {
    match c
    case Food => "food"
    case Grocery => "grocery"
    case Travel => "travel"
    case Rent => "rent"
    case Other => "other"
  }

  /** Choice validation of the category field: only the five stored keys are
      accepted, and each is read back as the category it names. */
  function ParseCategory(s: string): (r: Option<Category>)
    ensures r.Some? ==> CategoryKey(r.value) == s
    ensures r.None? <==> forall c: Category :: CategoryKey(c) != s
  {
    if s == "food" then Some(Food)
    else if s == "grocery" then Some(Grocery)
    else if s == "travel" then Some(Travel)
    else if s == "rent" then Some(Rent)
    else if s == "other" then Some(Other)
    else None
  }

  /** A calendar date. */
  datatype Date = Date(year: int, month: int, day: int)

  predicate IsLeapYear(y: int) {
    y % 4 == 0 && (y % 100 != 0 || y % 400 == 0)
  }

  function DaysInMonth(year: int, month: int): int {
    if month == 2 then (if IsLeapYear(year) then 29 else 28)
    else if month in {4, 6, 9, 11} then 30
    else 31
  }

  /** The dates a date field accepts (years 1 to 9999). */
  predicate ValidDate(d: Date) {
    && 1 <= d.year <= 9999
    && 1 <= d.month <= 12
    && 1 <= d.day <= DaysInMonth(d.year, d.month)
  }

  /** A calendar month: what `replace(day=1)` keeps of a date, and what the
      year/month filters and the month truncation compare. */
  datatype YearMonth = YearMonth(year: int, month: int)

  function MonthOf(d: Date): YearMonth {
    YearMonth(d.year, d.month)
  }

  /** Strict chronological order of months. */
  predicate Before(a: YearMonth, b: YearMonth) {
    a.year < b.year || (a.year == b.year && a.month < b.month)
  }

  /** A user of the identity layer, as far as the core reads it. */
  datatype User = User(username: string, email: string)

  /** One expense row. The attachment image, the row id and the creation
      timestamp are not part of this model. */
  datatype Expense = Expense(
    user: UserId,
    amount: int,
    category: Category,
    paymentMethod: MethodId,
    date: Date)

  /** The whole store. Salaries are a map, so a user has at most one salary
      row (the one-to-one link); the counters hand out fresh ids. */
  datatype Store = Store(
    users: map<UserId, User>,
    salaries: map<UserId, int>,
    methods: map<MethodId, string>,
    expenses: seq<Expense>,
    nextUserId: int,
    nextMethodId: int)

  /** The referential and column constraints the database keeps. */
  predicate ExpenseFits(st: Store, e: Expense) {
    && e.user in st.users
    && e.paymentMethod in st.methods
    && FitsAmountColumn(e.amount)
    && ValidDate(e.date)
  }

  predicate UniqueMethodNames(methods: map<MethodId, string>) {
    forall a, b :: a in methods && b in methods && a != b ==> methods[a] != methods[b]
  }

  predicate WellFormed(st: Store) {
    && (forall u :: u in st.salaries ==> u in st.users && FitsAmountColumn(st.salaries[u]))
    && (forall u :: u in st.users ==> u < st.nextUserId)
    && (forall m :: m in st.methods ==> m < st.nextMethodId)
    && UniqueMethodNames(st.methods)
    && (forall i :: 0 <= i < |st.expenses| ==> ExpenseFits(st, st.expenses[i]))
  }

  /** Everything an operation can fail with. */
  datatype Field = AmountField | CategoryField | MethodField | DateField
                 | UserIdField | UsernameField | EmailField | PasswordField | SalaryField
                 | MethodNameField

  datatype Error =
    | Invalid(fields: set<Field>)  // field-by-field validation errors
    | MalformedUserId              // a user_id that is not a number (an unhandled conversion error)
    | NoSuchActingUser             // "User with this ID does not exist"
    | SalaryNotSet                 // "Salary not set for this user. Please contact admin."
    | BudgetExceeded               // "Expense exceeds monthly salary limit"
    | NoSuchUser                   // "User does not exist" (the per-user summary)
    | MethodInUse                  // deletion refused by the protecting foreign key
    | DuplicateMethodName          // the unique constraint on payment method names

  /** The expenses of `xs` that do not belong to `u`, in their order. */
  function WithoutUser(xs: seq<Expense>, u: UserId): (r: seq<Expense>)
    ensures |r| <= |xs|
    ensures forall e :: e in r <==> e in xs && e.user != u
    ensures forall e :: multiset(r)[e] == if e.user == u then 0 else multiset(xs)[e]
    decreases |xs|
  {
    if |xs| == 0 then []
    else
      var ys, last := xs[..|xs| - 1], xs[|xs| - 1];
      assert xs == ys + [last];
      if last.user == u then WithoutUser(ys, u)
      else WithoutUser(ys, u) + [last]
  }

  /** Dropping a user and the user's salary row keeps the store constraints
      when the ledger keeps only stored expenses of other users. */
  lemma RemovedUserWellFormed(st: Store, u: UserId, rest: seq<Expense>)
    requires WellFormed(st)
    requires forall e :: e in rest ==> e in st.expenses && e.user != u
    ensures WellFormed(st.(users := st.users - {u}, salaries := st.salaries - {u}, expenses := rest))
  {
  }

  /** Deleting a user cascades to the user's expenses and salary row. */
  function DeleteUser(st: Store, u: UserId): (r: Store)
    requires u in st.users
    ensures u !in r.users && u !in r.salaries
    ensures forall v :: v in r.users <==> v in st.users && v != u
    ensures forall v :: v in r.users ==> r.users[v] == st.users[v]
    ensures forall v :: v in r.salaries <==> v in st.salaries && v != u
    ensures forall v :: v in r.salaries ==> r.salaries[v] == st.salaries[v]
    ensures forall e :: e in r.expenses <==> e in st.expenses && e.user != u
    ensures forall e :: multiset(r.expenses)[e] == if e.user == u then 0 else multiset(st.expenses)[e]
    ensures r.methods == st.methods
    ensures WellFormed(st) ==> WellFormed(r)
  {
    var rest := WithoutUser(st.expenses, u);
    var r := st.(users := st.users - {u}, salaries := st.salaries - {u}, expenses := rest);
    assert WellFormed(st) ==> WellFormed(r) by {
      if WellFormed(st) {
        RemovedUserWellFormed(st, u, rest);
      }
    }
    r
  }

  /** Deleting a payment method is refused while any expense refers to it. */
  function DeleteMethod(st: Store, m: MethodId): (r: Result<Store, Error>)
    requires m in st.methods
    ensures r.Err? <==> exists i :: 0 <= i < |st.expenses| && st.expenses[i].paymentMethod == m
    ensures r.Err? ==> r.error == MethodInUse
    ensures r.Ok? ==> r.value.methods == st.methods - {m}
    ensures r.Ok? ==> r.value.expenses == st.expenses && r.value.users == st.users
                      && r.value.salaries == st.salaries
    ensures r.Ok? && WellFormed(st) ==> WellFormed(r.value)
  {
    if exists i :: 0 <= i < |st.expenses| && st.expenses[i].paymentMethod == m then Err(MethodInUse)
    else Ok(st.(methods := st.methods - {m}))
  }

  /** The longest payment method name the name column holds. */
  const MaxMethodName: nat := 50

  /** Adding a payment method. The name is required and holds at most 50
      characters; only a name that passes these field checks is compared
      with the existing ones, and the name column is unique. */
  function AddMethod(st: Store, name: string): (r: Result<(Store, MethodId), Error>)
    requires WellFormed(st)
    ensures r.Err? <==> name == "" || |name| > MaxMethodName || name in st.methods.Values
    ensures name == "" || |name| > MaxMethodName ==> r == Err(Invalid({MethodNameField}))
    ensures r.Err? && 0 < |name| <= MaxMethodName ==> r.error == DuplicateMethodName
    ensures r.Ok? ==> var (st', m) := r.value;
      && m !in st.methods
      && st'.methods == st.methods[m := name]
      && st'.expenses == st.expenses && st'.users == st.users && st'.salaries == st.salaries
    ensures r.Ok? ==> WellFormed(r.value.0)
  {
    if name == "" || |name| > MaxMethodName then Err(Invalid({MethodNameField}))
    else if name in st.methods.Values then Err(DuplicateMethodName)
    else
      var m := st.nextMethodId;
      Ok((st.(methods := st.methods[m := name], nextMethodId := m + 1), m))
  }
}

=== FILE: outcomes.dfy ===
/** Option and Result values used in place of Python's `None` and of the
    exceptions the request handlers raise. */
module Outcomes {

  /** A value that may be missing (Python's `None`). */
  datatype Option<+T> = None | Some(value: T)

  /** Either a value or the error the handler would have raised. */
  datatype Result<+T, +E> = Ok(value: T) | Err(error: E)
}

=== FILE: rounding.dfy ===
/** Rounding of a salary percentage to 2 decimal places. The percentage is
    the exact ratio `remaining / salary * 100`, rounded to the nearest
    hundredth with ties going to the even neighbour (the default rounding of
    Python's `round` on a decimal). A percentage is returned as a whole
    number of hundredths of a percent: 4250 stands for 42.50 %. */
module Rounding {

  function Abs(x: int): nat {
    if x < 0 then -x else x
  }

  /** The integer nearest to `n / d`; on a tie, the even one. */
  function RoundHalfEven(n: int, d: int): (r: int)
    requires d > 0
    ensures 2 * Abs(n - r * d) <= d
    ensures 2 * Abs(n - r * d) == d ==> r % 2 == 0
  {
    var q, rem := n / d, n % d;
    assert n - q * d == rem;
    assert n - (q + 1) * d == rem - d;
    if 2 * rem < d then q
    else if 2 * rem > d then q + 1
    else if q % 2 == 0 then q
    else q + 1
  }

  /** Nothing else meets the rounding contract: an integer within half of
      `d` of `n / d` that wins ties by being even is `RoundHalfEven`. */
  lemma RoundHalfEvenUnique(n: int, d: int, r: int)
    requires d > 0
    requires 2 * Abs(n - r * d) <= d
    requires 2 * Abs(n - r * d) == d ==> r % 2 == 0
    ensures r == RoundHalfEven(n, d)
  {
    var s := RoundHalfEven(n, d);
    var a, b := n - r * d, n - s * d;
    assert 2 * Abs(b) <= d && (2 * Abs(b) == d ==> s % 2 == 0);
    assert a - b == (s - r) * d;
    NearbyMultiples(a, b, s - r, d);
    // Otherwise two neighbours would both win a tie, so both be even.
    assert s % 2 == 0 && r % 2 == 0 ==> Abs(s - r) != 1;
  }

  /** Two numbers within half of `d` of 0 that differ by a multiple of `d`
      are equal, or are exactly `d` apart and both ties. */
  lemma NearbyMultiples(a: int, b: int, k: int, d: int)
    requires d > 0
    requires 2 * Abs(a) <= d && 2 * Abs(b) <= d
    requires a - b == k * d
    ensures k == 0 || (Abs(k) == 1 && 2 * Abs(a) == d && 2 * Abs(b) == d)
  {
    if k >= 2 {
      MultipleAtLeastTwice(k, d);
    } else if k <= -2 {
      MultipleAtLeastTwice(-k, d);
    }
  }

  lemma MultipleAtLeastTwice(k: int, d: int)
    requires k >= 2 && d > 0
    ensures k * d >= 2 * d
  {
    assert k * d == (k - 2) * d + 2 * d;
  }

  /** `remaining / salary * 100` rounded to 2 decimal places, in hundredths
      of a percent; a negative salary divides like any other nonzero one. */
  function PercentHundredths(remaining: int, salary: int): (p: int)
    requires salary != 0
    ensures 2 * Abs(remaining * 10000 - p * salary) <= Abs(salary)
    ensures 2 * Abs(remaining * 10000 - p * salary) == Abs(salary) ==> p % 2 == 0
  {
    if salary > 0 then RoundHalfEven(remaining * 10000, salary)
    else
      var p := RoundHalfEven(-remaining * 10000, -salary);
      assert -remaining * 10000 - p * (-salary) == -(remaining * 10000 - p * salary);
      p
  }

  /** Exact ties go to the even hundredth: 0.01 left of 200.00 is 0.005 %,
      shown as 0.00 %, and 0.03 left is 0.015 %, shown as 0.02 %. */
  lemma PercentTiesGoToEven()
    ensures PercentHundredths(1, 20000) == 0
    ensures PercentHundredths(3, 20000) == 2
  {
  }
}

=== FILE: serializers.dfy ===
/** The fields derived when an expense is shown (what is left of the salary
    in that expense's own month, and as a percentage), the listing of the
    acting user's expenses, and registration of a new user with a salary. */
module Serializers {
  import opened Outcomes
  import opened Models
  import opened Ledger
  import opened ActingUser
  import opened Rounding

  /** What is left of the owner's salary in the month of `e`, recomputed
      from the current ledger; no salary row means no figure. */
  function RemainingSalary(st: Store, e: Expense): (r: Option<int>)
    ensures r.None? <==> e.user !in st.salaries
    ensures r.Some? ==> r.value + MonthSpent(st.expenses, e.user, MonthOf(e.date)) == st.salaries[e.user]
  {
    if e.user !in st.salaries then None
    else Some(st.salaries[e.user] - MonthSpent(st.expenses, e.user, MonthOf(e.date)))
  }

  /** The same figure as a percentage of the salary, in hundredths of a
      percent: none when there is no remaining figure, 0 when the salary is
      not positive, otherwise the rounded ratio. */
  function RemainingPercentage(st: Store, e: Expense): (r: Option<int>)
    ensures r.None? <==> RemainingSalary(st, e).None?
    ensures r.Some? && st.salaries[e.user] <= 0 ==> r.value == 0
    ensures r.Some? && st.salaries[e.user] > 0 ==>
              var gap := 2 * Abs(RemainingSalary(st, e).value * 10000 - r.value * st.salaries[e.user]);
              && gap <= st.salaries[e.user]
              && (gap == st.salaries[e.user] ==> r.value % 2 == 0)
  {
    match RemainingSalary(st, e)
    case None => None
    case Some(remaining) =>
      var salary := st.salaries[e.user];
      if salary <= 0 then Some(0) else Some(PercentHundredths(remaining, salary))
  }

  /** One expense as listed. */
  datatype ExpenseView = ExpenseView(
    expense: Expense,
    username: string,
    methodName: string,
    remainingSalary: Option<int>,
    remainingPercentage: Option<int>)

  function ViewOf(st: Store, e: Expense): ExpenseView
    requires ExpenseFits(st, e)
  {
    ExpenseView(e, st.users[e.user].username, st.methods[e.paymentMethod],
                RemainingSalary(st, e), RemainingPercentage(st, e))
  }

  /** The acting user's expenses, in ledger order, each with its derived
      fields. */
  function ListExpenses(st: Store, caller: UserId, body: RawParam, query: RawParam)
    : (r: Result<seq<ExpenseView>, Error>)
    requires WellFormed(st)
    ensures r.Err? <==> Resolve(st.users, caller, body, query).Err?
    ensures r.Ok? ==>
              var u := Resolve(st.users, caller, body, query).value;
              var mine := Select(st.expenses, ByUser(u));
              && |r.value| == |mine|
              && (forall i :: 0 <= i < |r.value| ==> r.value[i].expense == mine[i] && r.value[i].expense.user == u)
              && (forall e :: e in st.expenses && e.user == u <==> exists i :: 0 <= i < |r.value| && r.value[i].expense == e)
              && (forall i :: 0 <= i < |r.value| ==>
                    r.value[i].remainingSalary == RemainingSalary(st, mine[i])
                    && r.value[i].remainingPercentage == RemainingPercentage(st, mine[i]))
  {
    match Resolve(st.users, caller, body, query)
    case Err(e) => Err(e)
    case Ok(u) =>
      var mine := Select(st.expenses, ByUser(u));
      assert forall i :: 0 <= i < |mine| ==> ExpenseFits(st, mine[i]) by {
        forall i | 0 <= i < |mine| ensures ExpenseFits(st, mine[i]) {
          assert mine[i] in st.expenses;
        }
      }
      Ok(ViewsOf(st, mine))
  }

  /** The views of a list of stored expenses, one per expense and in order. */
  function ViewsOf(st: Store, es: seq<Expense>): (r: seq<ExpenseView>)
    requires forall i :: 0 <= i < |es| ==> ExpenseFits(st, es[i])
    ensures |r| == |es|
    ensures forall i :: 0 <= i < |r| ==> r[i] == ViewOf(st, es[i])
    ensures forall e :: e in es <==> exists i :: 0 <= i < |r| && r[i].expense == e
  {
    var views := seq(|es|, i requires 0 <= i < |es| => ViewOf(st, es[i]));
    assert forall e :: e in es ==> exists i :: 0 <= i < |views| && views[i].expense == e by {
      forall e | e in es ensures exists i :: 0 <= i < |views| && views[i].expense == e {
        var i :| 0 <= i < |es| && es[i] == e;
        assert views[i].expense == e;
      }
    }
    views
  }

  /** The derived fields are recomputed, not stored: a later expense of the
      same user in the same month lowers an earlier expense's remaining
      salary by its amount, and one in another month leaves it alone. */
  lemma LaterExpenseChangesView(st: Store, e: Expense, later: Expense)
    requires e.user in st.salaries
    ensures var st' := st.(expenses := st.expenses + [later]);
            RemainingSalary(st', e).value
              == RemainingSalary(st, e).value
                 - (if later.user == e.user && MonthOf(later.date) == MonthOf(e.date) then later.amount else 0)
  {
  }

  /** ASCII lower-casing of one character. */
  function LowerChar(c: char): char {
    if 'A' <= c <= 'Z' then (c as int - 'A' as int + 'a' as int) as char else c
  }

  function Lower(s: string): (r: string)
    ensures |r| == |s| && forall i :: 0 <= i < |s| ==> r[i] == LowerChar(s[i])
  {
    seq(|s|, i requires 0 <= i < |s| => LowerChar(s[i]))
  }

  /** The position of the last '@' of `s`, if any. */
  function LastAt(s: string): (r: Option<nat>)
    ensures r.None? <==> '@' !in s
    ensures r.Some? ==> r.value < |s| && s[r.value] == '@' && '@' !in s[r.value + 1..]
    decreases |s|
  {
    if |s| == 0 then None
    else if s[|s| - 1] == '@' then Some(|s| - 1)
    else
      var r := LastAt(s[..|s| - 1]);
      assert forall c :: c in s <==> c in s[..|s| - 1] || c == s[|s| - 1] by {
        assert s == s[..|s| - 1] + [s[|s| - 1]];
      }
      if r.Some? then
        assert s[r.value + 1..] == s[..|s| - 1][r.value + 1..] + [s[|s| - 1]];
        r
      else r
  }

  /** The email as the identity layer stores it: the domain, i.e. the text
      after the last '@', is lower-cased, the mailbox name before it is kept
      as typed, and text without '@' is kept unchanged. */
  function NormalizeEmail(email: string): (r: string)
    ensures |r| == |email|
    ensures '@' !in email ==> r == email
    ensures LastAt(email).Some? ==>
              var k := LastAt(email).value;
              && r[..k + 1] == email[..k + 1]
              && r[k + 1..] == Lower(email[k + 1..])
  {
    match LastAt(email)
    case None => email
    case Some(k) => email[..k + 1] + Lower(email[k + 1..])
  }

  /** Lower-casing keeps '@' where it is and creates no other. */
  lemma LowerKeepsAt(s: string)
    ensures '@' in Lower(s) <==> '@' in s
  {
  }

  /** Normalising twice changes nothing more: a stored email is its own
      normal form. */
  lemma NormalizeEmailIdempotent(email: string)
    ensures NormalizeEmail(NormalizeEmail(email)) == NormalizeEmail(email)
  {
    var n := NormalizeEmail(email);
    if LastAt(email).Some? {
      var k := LastAt(email).value;
      var domain := email[k + 1..];
      assert n[k + 1..] == Lower(domain);
      LowerKeepsAt(domain);
      assert n[k] == '@' by {
        assert n[..k + 1][k] == email[..k + 1][k];
      }
      LastAtIs(n, k);
      assert Lower(Lower(domain)) == Lower(domain);
      assert n == n[..k + 1] + n[k + 1..];
    }
  }

  /** The last '@' is found where it is. */
  lemma LastAtIs(s: string, k: nat)
    requires k < |s| && s[k] == '@' && '@' !in s[k + 1..]
    ensures LastAt(s) == Some(k)
  {
  }

  /** Registration as the code does it. The username and email must be
      non-empty and the password non-blank; the email is looked up exactly as
      submitted among the stored emails (a case-sensitive comparison, as in
      SQLite and PostgreSQL), the username among the stored usernames, and
      the salary must fit the amount column; all failing fields are reported
      together. On success the user is stored with the normalised email and
      gets exactly one salary row holding the submitted amount. The password
      itself is handed to the identity layer and is not stored here. */
  function Register(st: Store, username: string, email: string, password: string, salary: int)
    : (r: Result<(Store, UserId), Error>)
    requires WellFormed(st)
    ensures var emailTaken := exists v :: v in st.users && st.users[v].email == email;
            var nameTaken := exists v :: v in st.users && st.users[v].username == username;
            && (r.Err? <==> emailTaken || nameTaken || email == "" || username == "" || password == ""
                            || !FitsAmountColumn(salary))
            && (r.Err? ==> r.error.Invalid?)
            && (r.Err? ==> (EmailField in r.error.fields <==> emailTaken || email == ""))
            && (r.Err? ==> (UsernameField in r.error.fields <==> nameTaken || username == ""))
            && (r.Err? ==> (PasswordField in r.error.fields <==> password == ""))
            && (r.Err? ==> (SalaryField in r.error.fields <==> !FitsAmountColumn(salary)))
    ensures r.Ok? ==>
              var (st', id) := r.value;
              && id !in st.users && id !in st.salaries
              && st'.users == st.users[id := User(username, NormalizeEmail(email))]
              && st'.salaries == st.salaries[id := salary]
              && st'.expenses == st.expenses && st'.methods == st.methods
              && WellFormed(st')
  {
    var emailTaken := exists v :: v in st.users && st.users[v].email == email;
    RegisterWith(st, username, email, emailTaken, password, salary)
  }

  /** The field checks and the store update shared by both registrations;
      `emailTaken` is the outcome of the email lookup. */
  function RegisterWith(st: Store, username: string, email: string, emailTaken: bool,
                        password: string, salary: int)
    : (r: Result<(Store, UserId), Error>)
    requires WellFormed(st)
    ensures var nameTaken := exists v :: v in st.users && st.users[v].username == username;
            && (r.Err? <==> emailTaken || nameTaken || email == "" || username == "" || password == ""
                            || !FitsAmountColumn(salary))
            && (r.Err? ==> r.error.Invalid?)
            && (r.Err? ==> (EmailField in r.error.fields <==> emailTaken || email == ""))
            && (r.Err? ==> (UsernameField in r.error.fields <==> nameTaken || username == ""))
            && (r.Err? ==> (PasswordField in r.error.fields <==> password == ""))
            && (r.Err? ==> (SalaryField in r.error.fields <==> !FitsAmountColumn(salary)))
    ensures r.Ok? ==>
              var (st', id) := r.value;
              && id !in st.users && id !in st.salaries
              && st'.users == st.users[id := User(username, NormalizeEmail(email))]
              && st'.salaries == st.salaries[id := salary]
              && st'.expenses == st.expenses && st'.methods == st.methods
              && WellFormed(st')
  {
    var nameTaken := exists v :: v in st.users && st.users[v].username == username;
    var errors := RegistrationErrors(nameTaken || username == "", emailTaken || email == "",
                                     password == "", !FitsAmountColumn(salary));
    if errors != {} then Err(Invalid(errors))
    else
      var id := st.nextUserId;
      var st' := st.(users := st.users[id := User(username, NormalizeEmail(email))],
                     salaries := st.salaries[id := salary],
                     nextUserId := id + 1);
      AddedUserWellFormed(st, id, User(username, NormalizeEmail(email)), salary);
      Ok((st', id))
  }

  /** The field errors of a registration, one per failing field. */
  function RegistrationErrors(badName: bool, badEmail: bool, badPassword: bool, badSalary: bool)
    : (fields: set<Field>)
    ensures fields == {} <==> !badName && !badEmail && !badPassword && !badSalary
    ensures UsernameField in fields <==> badName
    ensures EmailField in fields <==> badEmail
    ensures PasswordField in fields <==> badPassword
    ensures SalaryField in fields <==> badSalary
  {
    (if badName then {UsernameField} else {})
    + (if badEmail then {EmailField} else {})
    + (if badPassword then {PasswordField} else {})
    + (if badSalary then {SalaryField} else {})
  }

  /** A user with a fresh id and a salary that fits the column keeps the
      store constraints. */
  lemma AddedUserWellFormed(st: Store, id: UserId, user: User, salary: int)
    requires WellFormed(st) && id == st.nextUserId && FitsAmountColumn(salary)
    ensures id !in st.users && id !in st.salaries
    ensures WellFormed(st.(users := st.users[id := user], salaries := st.salaries[id := salary],
                           nextUserId := id + 1))
  {
  }

  /** Once an email that is already in normal form is registered, a second
      registration with it fails on the email field, and the first user's
      salary row is untouched by the attempt. */
  lemma SecondRegistrationWithSameEmailFails(st: Store, name1: string, name2: string, email: string,
                                             pw1: string, pw2: string, salary1: int, salary2: int)
    requires WellFormed(st)
    requires NormalizeEmail(email) == email
    requires Register(st, name1, email, pw1, salary1).Ok?
    ensures var (st', id) := Register(st, name1, email, pw1, salary1).value;
            && st'.salaries[id] == salary1
            && Register(st', name2, email, pw2, salary2).Err?
            && EmailField in Register(st', name2, email, pw2, salary2).error.fields
  {
  }

  /** The lookup compares the email as typed while the stored copy has a
      lower-cased domain, so an email not in normal form, such as a
      well-formed address whose domain has a capital letter, can be
      registered again and again: two users end up with the same stored
      email. */
  lemma MixedCaseDomainRegistersTwice(st: Store, name1: string, name2: string, email: string,
                                      pw1: string, pw2: string, salary1: int, salary2: int)
    requires WellFormed(st)
    requires NormalizeEmail(email) != email
    requires Register(st, name1, email, pw1, salary1).Ok?
    requires name2 != name1 && name2 != "" && pw2 != "" && FitsAmountColumn(salary2)
    requires forall v :: v in st.users ==> st.users[v].username != name2
    ensures var (st1, id1) := Register(st, name1, email, pw1, salary1).value;
            && Register(st1, name2, email, pw2, salary2).Ok?
            && var (st2, id2) := Register(st1, name2, email, pw2, salary2).value;
               && id1 != id2
               && st2.users[id1].email == st2.users[id2].email == NormalizeEmail(email)
  {
    var (st1, id1) := Register(st, name1, email, pw1, salary1).value;
    assert !exists v :: v in st1.users && st1.users[v].email == email;
    assert !exists v :: v in st1.users && st1.users[v].username == name2;
  }

  /** "a@X.io", a well-formed address, is not in normal form: it is stored
      as "a@x.io". */
  lemma ExampleEmailNormalForm()
    ensures NormalizeEmail("a@X.io") == "a@x.io"
  {
    var email := "a@X.io";
    assert '@' !in email[2..];
    LastAtIs(email, 1);
    assert Lower(email[2..]) == "x.io";
  }

  /** No two users share an email. */
  predicate UniqueEmails(users: map<UserId, User>) {
    forall a, b :: a in users && b in users && a != b ==> users[a].email != users[b].email
  }

  /** Registration with the email lookup made on the normalised email, the
      form in which emails are stored. */
  function RegisterNormalized(st: Store, username: string, email: string, password: string, salary: int)
    : (r: Result<(Store, UserId), Error>)
    requires WellFormed(st)
    ensures r.Err? ==> r.error.Invalid?
    ensures var taken := exists v :: v in st.users && st.users[v].email == NormalizeEmail(email);
            var nameTaken := exists v :: v in st.users && st.users[v].username == username;
            && (r.Err? <==> taken || nameTaken || email == "" || username == "" || password == ""
                            || !FitsAmountColumn(salary))
            && (r.Err? ==> (EmailField in r.error.fields <==> taken || email == ""))
            && (r.Err? ==> (UsernameField in r.error.fields <==> nameTaken || username == ""))
            && (r.Err? ==> (PasswordField in r.error.fields <==> password == ""))
            && (r.Err? ==> (SalaryField in r.error.fields <==> !FitsAmountColumn(salary)))
    ensures r.Ok? ==>
              var (st', id) := r.value;
              && id !in st.users && id !in st.salaries
              && st'.users == st.users[id := User(username, NormalizeEmail(email))]
              && st'.salaries == st.salaries[id := salary]
              && st'.expenses == st.expenses && st'.methods == st.methods
              && WellFormed(st')
  {
    var taken := exists v :: v in st.users && st.users[v].email == NormalizeEmail(email);
    RegisterWith(st, username, email, taken, password, salary)
  }

  /** With the lookup on the normalised email, registration keeps emails
      unique. */
  lemma RegisterNormalizedKeepsEmailsUnique(st: Store, username: string, email: string,
                                            password: string, salary: int)
    requires WellFormed(st) && UniqueEmails(st.users)
    requires RegisterNormalized(st, username, email, password, salary).Ok?
    ensures UniqueEmails(RegisterNormalized(st, username, email, password, salary).value.0.users)
  {
  }

  /** With the lookup on the normalised email, any second registration of
      the same mailbox fails, whatever the case of its domain. */
  lemma RegisterNormalizedRefusesSameMailbox(st: Store, name1: string, name2: string,
                                             email1: string, email2: string,
                                             pw1: string, pw2: string, salary1: int, salary2: int)
    requires WellFormed(st)
    requires NormalizeEmail(email1) == NormalizeEmail(email2)
    requires RegisterNormalized(st, name1, email1, pw1, salary1).Ok?
    ensures var st' := RegisterNormalized(st, name1, email1, pw1, salary1).value.0;
            && WellFormed(st')
            && RegisterNormalized(st', name2, email2, pw2, salary2).Err?
  {
  }
}

=== FILE: summary.dfy ===
/** The two read-only summaries: the per-user summary (category totals,
    mean of the month totals, what is left of the salary this month) and the
    month-by-month totals of the acting user. */
module Summary {
  import opened Outcomes
  import opened Models
  import opened Ledger
  import opened ActingUser
  import opened Serializers
  import opened Rounding

  /** The per-user summary. The percentage is in hundredths of a percent. */
  datatype UserSummary = UserSummary(
    userId: UserId,
    userName: string,
    categories: map<Category, int>,
    monthlyAverage: real,
    salary: Option<int>,
    remainingSalary: Option<int>,
    remainingPercentage: Option<int>)

  /** The total of each category in which `u` has at least one expense. */
  function CategoryTotals(xs: seq<Expense>, u: UserId): (r: map<Category, int>)
    ensures forall c :: c in r <==> HasCategory(xs, u, c)
    ensures forall c :: c in r ==> r[c] == CategorySum(xs, u, c)
  {
    map c | c in AllCategories && HasCategory(xs, u, c) :: CategorySum(xs, u, c)
  }

  /** The mean of the month totals, or 0 when there are none. */
  function MeanOfTotals(ts: seq<MonthTotal>): real {
    if |ts| == 0 then 0.0 else SumTotals(ts) as real / |ts| as real
  }

  /** The mean of `u`'s month totals: what the total spent becomes when
      spread evenly over the months with expenses. */
  function MonthlyMean(xs: seq<Expense>, u: UserId): (r: real)
    ensures !HasExpense(xs, u) ==> r == 0.0
    ensures |MonthsOf(xs, u)| > 0 ==> r == UserTotal(xs, u) as real / |MonthsOf(xs, u)| as real
  {
    var totals := MonthlyTotals(xs, u);
    MonthlyTotalsPartition(xs, u);
    MonthsOfEmptyIff(xs, u);
    MeanOfTotals(totals)
  }

  /** The summary of user `userId`. The remaining salary is measured against
      the spending of the month containing `today`; a salary of exactly 0
      counts as false and, like a missing salary, yields no remaining
      figures, while a negative salary still divides. */
  function Summarize(st: Store, userId: UserId, today: Date): (r: Result<UserSummary, Error>)
    ensures r.Err? <==> userId !in st.users
    ensures r.Err? ==> r.error == NoSuchUser
    ensures r.Ok? ==>
              var s := r.value;
              var xs := st.expenses;
              && s.userId == userId
              && s.userName == st.users[userId].username
              && (forall c :: c in s.categories <==> HasCategory(xs, userId, c))
              && (forall c :: c in s.categories ==> s.categories[c] == CategorySum(xs, userId, c))
              && (!HasExpense(xs, userId) ==> s.monthlyAverage == 0.0)
              && (|MonthsOf(xs, userId)| > 0 ==>
                    s.monthlyAverage == UserTotal(xs, userId) as real / |MonthsOf(xs, userId)| as real)
              && s.salary == (if userId in st.salaries then Some(st.salaries[userId]) else None)
              && (s.remainingSalary.None? <==> userId !in st.salaries || st.salaries[userId] == 0)
              && (s.remainingPercentage.None? <==> s.remainingSalary.None?)
              && (s.remainingSalary.Some? ==>
                    var salary := st.salaries[userId];
                    var left := salary - MonthSpent(xs, userId, MonthOf(today));
                    && s.remainingSalary.value == left
                    && (var gap := 2 * Abs(left * 10000 - s.remainingPercentage.value * salary);
                        gap <= Abs(salary) && (gap == Abs(salary) ==> s.remainingPercentage.value % 2 == 0)))
  {
    if userId !in st.users then Err(NoSuchUser)
    else
      var xs := st.expenses;
      var mean := MonthlyMean(xs, userId);
      var salary := if userId in st.salaries then Some(st.salaries[userId]) else None;
      var spentThisMonth := MonthSpent(xs, userId, MonthOf(today));
      var remaining: Option<int> :=
        if salary.Some? && salary.value != 0 then Some(salary.value - spentThisMonth) else None;
      var percentage: Option<int> :=
        if salary.Some? && salary.value != 0
        then Some(PercentHundredths(salary.value - spentThisMonth, salary.value))
        else None;
      Ok(UserSummary(userId, st.users[userId].username, CategoryTotals(xs, userId),
                     mean, salary, remaining, percentage))
  }

  /** Reading the summary of a user with no expenses is not an error: the
      category map is empty and the average is 0. */
  lemma SummaryOfUserWithoutExpenses(st: Store, userId: UserId, today: Date)
    requires userId in st.users
    requires !HasExpense(st.expenses, userId)
    ensures Summarize(st, userId, today).Ok?
    ensures Summarize(st, userId, today).value.categories == map[]
    ensures Summarize(st, userId, today).value.monthlyAverage == 0.0
  {
  }

  /** The monthly summary: the month groups, or the empty-state signal. */
  datatype MonthlyReport = NoData | Months(totals: seq<MonthTotal>)

  predicate AscendingByMonth(ts: seq<MonthTotal>) {
    forall i, j :: 0 <= i < j < |ts| ==> Before(ts[i].month, ts[j].month)
  }

  /** The acting user's month totals ordered by month ascending; a user
      without expenses gets the "No expense data available" signal instead
      of an empty list. */
  function MonthlySummary(st: Store, caller: UserId, body: RawParam, query: RawParam)
    : (r: Result<MonthlyReport, Error>)
    ensures r.Err? <==> Resolve(st.users, caller, body, query).Err?
    ensures r.Err? ==> r.error == Resolve(st.users, caller, body, query).error
    ensures r.Ok? ==>
              var u := Resolve(st.users, caller, body, query).value;
              && (r.value.NoData? <==> !HasExpense(st.expenses, u))
              && (r.value.Months? ==>
                    var ts := r.value.totals;
                    && |ts| > 0
                    && AscendingByMonth(ts)
                    && (forall i :: 0 <= i < |ts| ==> ts[i].total == MonthSpent(st.expenses, u, ts[i].month))
                    && (forall i :: 0 <= i < |ts| ==> HasMonth(st.expenses, u, ts[i].month))
                    && (forall m :: HasMonth(st.expenses, u, m) ==> exists i :: 0 <= i < |ts| && ts[i].month == m)
                    && SumTotals(ts) == UserTotal(st.expenses, u))
  {
    match Resolve(st.users, caller, body, query)
    case Err(e) => Err(e)
    case Ok(u) =>
      var ts := MonthlyTotals(st.expenses, u);
      MonthsOfEmptyIff(st.expenses, u);
      MonthlyTotalsPartition(st.expenses, u);
      if |ts| == 0 then Ok(NoData)
      else
        MonthlyTotalsCoverMonths(st.expenses, u);
        Ok(Months(ts))
  }

  /** A salary of exactly 0 is treated differently by the two percentages:
      the user summary reports no figures, an expense view reports 0. */
  lemma ZeroSalaryPercentages(st: Store, e: Expense, today: Date)
    requires e.user in st.users && e.user in st.salaries && st.salaries[e.user] == 0
    ensures RemainingPercentage(st, e) == Some(0)
    ensures Summarize(st, e.user, today).value.remainingSalary == None
    ensures Summarize(st, e.user, today).value.remainingPercentage == None
  {
  }
}
